=== FILE: README.md ===
# Flask login system — a Dafny model

The application is a small Flask site backed by SQLite. Users sign up with a
username and a password and log in with an optional "remember me" box. A
logged-in user sees a home page that greets them with a `last_visit` cookie,
and can log out. This project models the application's authentication
state machine without Flask or SQLite. Three pieces of state are involved:

- the accounts store: the `users` table, whose `username` column is UNIQUE;
- the client's session: an optional `username` plus the `permanent` flag;
- the client's `last_visit` cookie: a value plus an optional max-age.

The four routes are pure functions. Each takes the state and the submitted
form and returns the response together with the new state.

Modules:

- `Wrappers` (`wrappers.dfy`): the `Option` type.
- `Accounts` (`accounts.dfy`): the store as a map from username to password.
  It has the uniqueness-checked `Create` and the literal-match `Verify`.
- `UsersTable` (`users_table.dfy`): the table as the database holds it.
  Rows are kept in insertion order with auto-increment ids. The UNIQUE check
  runs on INSERT, and the login query finds a row whose username and
  password both match; the scan order is the model's choice. A proof shows this table behaves like the map in
  `Accounts`.
- `ClientSession` (`session.dfy`): the session record, the visit cookie and
  the seven-day constants (604800 seconds). The session's lifetime and the
  cookie's max-age both come from one test: remember equals `"on"`.
- `AuthFlow` (`auth_flow.dfy`): `Signup`, `Login`, `Home` and `Logout`.
- `AuthTrace` (`auth_trace.dfy`): runs of many requests. It proves that:
  - the store only grows;
  - a signed-in session always names a registered account;
  - the cookie always matches the session;
  - logout is idempotent.
  A lemma also states the sign-up/login/logout walk-through step by step.

Modelling choices that follow the code:

- A missing `username` or `password` field makes `request.form[...]` fail.
  Flask answers that with HTTP 400, modelled as `BadRequest`, and the state
  does not change. The remember field is read with `form.get`, so it is
  optional.
- `session.pop("username", None)` removes only the username. The model's
  `Logout` therefore keeps the session's `permanent` flag.
- Logout sends `last_visit` with an empty value and `expires=0`. The client
  deletes such a cookie, so the model's cookie becomes absent. Home then
  redirects to login until the next login writes a new cookie.
- The error texts are the code's full strings: `"Username already exists!
  Try another."` and `"Invalid username or password. Try again."`.
- Logging in while already logged in overwrites the session's username and
  permanence, and the cookie, as the code does.

## Model

| member | source | states |
|---|---|---|
| Accounts.Create | app.py:75-86 | Creation succeeds exactly when the username is unused. On success the store gains exactly that (username, password) entry and every other account is unchanged. |
| Accounts.VerifyAfterCreate | app.py:104-108 | A newly created account logs in with its own password and with no other. |
| Accounts.CreatePreservesVerify | app.py:104-105 | Creating one account does not change whether any other username/password pair verifies. |
| Accounts.CreateTwice | app.py:40 | Two creations of the same fresh username: the first succeeds and the second reports the duplicate. |
| Accounts.Verify | app.py:104-108 | A username/password pair verifies exactly when the store holds exactly that password for that username, by literal equality. An unknown username never verifies. |
| UsersTable.AsStore | app.py:38-42 | The map read from the table has exactly the usernames of the table's rows as keys. |
| UsersTable.Insert | app.py:77 | INSERT fails with an integrity error exactly when the username is already in a row. Otherwise it appends one row with that username and password. It keeps the UNIQUE constraint and the 1, 2, 3, … id numbering. |
| UsersTable.AsStoreRow | app.py:40 | When usernames are unique, every row's password is what the map gives for that row's username. |
| UsersTable.MatchIffVerify | app.py:104-105 | When usernames are unique, some row matches both columns exactly when the map verifies the pair. |
| UsersTable.SelectByCredentials | app.py:104-106 | The query returns a row whose username and password both equal the arguments, or nothing when no row matches. Table order is the model's choice: it scans in insertion order and returns the first match. When usernames are unique, it finds a row exactly when the map verifies the pair. |
| UsersTable.InsertRefinesCreate | app.py:75-86 | INSERT on the table succeeds exactly when `Create` on the map does, and afterwards the table reads as the map produced by `Create`. |
| ClientSession.Lifetime | app.py:23 | A session has a lifetime exactly when it is permanent, and that lifetime is 604800 seconds (7 days). |
| ClientSession.SignIn | app.py:110-118 | After login the session holds the submitted username. It is permanent, with a 604800-second lifetime, exactly when remember is "on", and otherwise has no lifetime. |
| ClientSession.SignOut | app.py:142 | Signing out removes the username and keeps the permanent flag, and with it the session's lifetime, as `session.pop("username", None)` does. |
| ClientSession.LastVisit | app.py:59 | Home's message is the cookie's value when the client sends one, and "First time visiting!" otherwise. |
| ClientSession.WelcomeCookie | app.py:126-127 | The login cookie's value is "Welcome back, " followed by the username. Its max-age equals the lifetime of the session made by the same login, so it is present exactly when remember is "on". |
| AuthFlow.RememberField | app.py:100 | The remember field is absent when the form does not carry it, and otherwise is exactly the submitted value. |
| AuthFlow.Signup | app.py:70-86 | Signup never touches the session or the cookie. A missing field gives 400 and a taken username gives the duplicate message, and in both cases the store is unchanged. Otherwise the store gains exactly the submitted entry and the client is redirected to login without being logged in. |
| AuthFlow.Login | app.py:95-132 | Login redirects home exactly when the store maps the submitted username to exactly the submitted password. Every other case leaves the state unchanged: a missing field gives 400, and any mismatch gives the single invalid-credentials message. On success the session holds the username and is permanent exactly when remember is "on". The cookie then carries the welcome message, with a max-age equal to the session's lifetime. |
| AuthFlow.Home | app.py:55-64 | Home changes nothing. It renders the page exactly when the session holds a username: it shows that username and the cookie's value, or "First time visiting!" when there is no cookie. Otherwise it redirects to login. |
| AuthFlow.Logout | app.py:142-147 | Logout always redirects to login. It removes the session's username, keeps the permanent flag, clears the cookie and leaves the store alone. |
| AuthTrace.InitialConsistent | app.py:35-48 | A new deployment with a new client starts with no session username and no cookie, and satisfies the session/cookie/store invariant. |
| AuthTrace.ApplyPreserves | app.py:52-147 | Every route keeps the invariant. Whenever the session holds a username, that account exists and the client holds its welcome cookie, with a max-age equal to the session's lifetime. No route removes or changes an account. |
| AuthTrace.RunPreserves | app.py:52-147 | Any sequence of requests keeps that invariant. Every account present at the start is still present afterwards with the same password. |
| AuthTrace.HomeGreetsOnlyRegistered | app.py:55-64 | In every state reachable from a new deployment, the home page greets only a registered user, and always with that user's welcome message. |
| AuthTrace.LogoutIdempotent | app.py:142-147 | Logging out twice gives the same response and state as logging out once. |
| AuthTrace.HomeAfterLogout | app.py:139-147 | After logout, the home page redirects to login. |
| AuthTrace.HomeAfterLogin | app.py:118-127 | After a successful login, home renders the submitted username with "Welcome back, " followed by that username. |
| AuthTrace.SignupThenLogin | app.py:77-82 | After signing up a fresh username, the client is redirected to login with its session untouched. Login then succeeds with exactly the signup password. A second signup of the same name is refused and changes nothing. |
| AuthTrace.FailedLoginsAlike | app.py:130-132 | Any two failed logins that supply both fields get the same response and the same state. An unknown username therefore cannot be told apart from a wrong password. |
| AuthTrace.RememberOnlyChangesLifetime | app.py:110-127 | With and without the remember field, a login gives the same username and cookie message. The session's permanence and the cookie's 604800-second max-age are present together, and only when remember is exactly "on". |
| AuthTrace.AliceScenario | app.py:52-147 | Walk-through: alice signs up, and a second signup is refused. A wrong password is rejected and no session is made. A remembered login creates a permanent session and a 604800-second cookie. Home greets alice, logout ends the session and clears the cookie, and home then redirects to login. |

## Left out

- Flask routing, `render_template`, `url_for` and the GET branches of `/signup` and `/login`: these only render forms. A response names its page; it does not produce HTML.
- SQLite connection handling (`get_db_connection`, running `init_db`, commit and close): only the table's contents and its UNIQUE rule are modelled.
- Session signing, `secret_key` and `app.run`: transport and process plumbing.
- Wall-clock expiry: no clock is modelled, and only the permanent flag and the max-age value are kept. In the running program, Flask re-issues a permanent session cookie with a fresh seven-day expiry on every request, so the session ends seven days after the client's last request. The `last_visit` cookie keeps the max-age it was given at login and ends seven days after that login. Flask checks every session cookie's signature age against `permanent_session_lifetime`, permanent or not, and re-signs a non-permanent session only when it is modified. So a non-permanent session ends when the browser closes or seven days after it was last written, whichever comes first. A `last_visit` cookie without a max-age ends when the browser closes.
- AuthTrace.HomeGreetsOnlyRegistered: the claim that home always shows the welcome message holds only in the model, which has no clock and a client that keeps every cookie and sends back only the cookie the server last set. The cookie is plain and unsigned, so a client that sends `last_visit=anything` while logged in is shown that text. In the program a remembered user can outlive the `last_visit` cookie: one who visits on day 6 and returns on day 8 is still logged in, and home then shows "First time visiting!". The claim that home greets only registered users rests on a different assumption: that the client cannot forge the signed session cookie. The secret key is hard-coded in the source (app.py:20), so anyone who reads it can sign a session naming an account that does not exist, and home would greet that name.
- AuthTrace.ApplyPreserves: the cookie half of the invariant (a signed-in session comes with its welcome cookie) depends on the model having no clock and a client that keeps every cookie and sends back only the cookie the server last set. The account half (a signed-in session names a registered account) assumes that the session cookie cannot be forged, which the hard-coded secret key (app.py:20) does not provide. Only the growth of the store depends on neither assumption.
- AuthTrace.RunPreserves: same limit as `AuthTrace.ApplyPreserves`. Over a run, the cookie half of the invariant depends on nothing expiring and on the client keeping every cookie and sending back only the cookie the server last set. The account half assumes an unforgeable session cookie, which the hard-coded secret key (app.py:20) does not provide. Only the growth of the store depends on neither.
- The expired cookie on logout: modelled as deleted by the client. The header with an empty value and `expires=0` is not modelled.
- Concurrent signups of the same username: the database makes the check-and-insert atomic, and the model serves requests one at a time.
- Several clients: the state holds one client's session and cookie next to the shared store.

=== FILE: accounts.dfy ===
/**
 The credential store seen by the application: the `users` table viewed as a
 map from username to password. Usernames are unique because the column is
 declared UNIQUE; a duplicate insert is the only way creation can fail.
 Matching is literal string equality: no trimming, no case folding.
 */
module Accounts {

  type Username = string
  type Password = string

  /** Every registered account, keyed by its (unique) username. */
  type Store = map<Username, Password>

  datatype CreateResult = Created(store: Store) | AlreadyExists

  /** Adds the account `(u, p)` unless `u` is already taken. */
  function Create(store: Store, u: Username, p: Password): (r: CreateResult)
    ensures r.Created? <==> u !in store
    ensures r.Created? ==> r.store.Keys == store.Keys + {u}
    ensures r.Created? ==> r.store[u] == p
    ensures r.Created? ==> forall k :: k in store ==> k in r.store && r.store[k] == store[k]
  {
    if u in store then AlreadyExists else Created(store[u := p])
  }

  /**
   The credentials `(u, p)` name a stored account with exactly that password.
   An unknown username and a wrong password both simply fail.
   */
  function Verify(store: Store, u: Username, p: Password): (ok: bool)
    ensures u !in store ==> !ok
    ensures u in store ==> (ok <==> store[u] == p)
  {
    u in store && store[u] == p
  }

  /** A freshly created account verifies with its own password and with no other. */
  lemma VerifyAfterCreate(store: Store, u: Username, p: Password, q: Password)
    requires u !in store
    ensures Create(store, u, p).Created?
    ensures Verify(Create(store, u, p).store, u, q) <==> q == p
  {
  }

  /** Creating an account leaves every existing account verifiable exactly as before. */
  lemma CreatePreservesVerify(store: Store, u: Username, p: Password, v: Username, q: Password)
    requires Create(store, u, p).Created?
    requires v != u
    ensures Verify(Create(store, u, p).store, v, q) <==> Verify(store, v, q)
  {
  }

  /**
   Two creations of the same fresh username, one after the other: exactly the
   first succeeds, and the second reports the duplicate.
   */
  lemma CreateTwice(store: Store, u: Username, p: Password, q: Password)
    requires u !in store
    ensures Create(store, u, p).Created?
    ensures Create(Create(store, u, p).store, u, q) == AlreadyExists
  {
  }
}

=== FILE: auth_flow.dfy ===
/**
 The POST branches of /signup and /login, and the routes / and /logout, as pure
 transitions over the server's account store and one client's session and
 visit cookie. Each takes the state and the submitted form and returns what
 the client receives together with the new state.
 */
module AuthFlow {
  import opened Wrappers
  import Accounts
  import opened ClientSession

  const UsernameTaken := "Username already exists! Try another."
  const InvalidCredentials := "Invalid username or password. Try again."

  /** The server's account store and the state held for, or by, one client. */
  datatype State = State(accounts: Accounts.Store, session: Session, cookie: Option<VisitCookie>)

  /** The submitted form fields by name. */
  type Form = map<string, string>

  /** What the client receives. */
  datatype Response =
    | RedirectToLogin
    | RedirectToHome
    | RenderHome(username: string, lastVisit: string)
    | Text(body: string)
      /** A required form field was missing (Flask answers 400). */
    | BadRequest

  datatype Step = Step(response: Response, state: State)

  /** The state of a new deployment seen by a new client. */
  const Initial := State(map[], Fresh, None)

  /** The form carries both required fields. */
  predicate HasCredentials(form: Form)
  {
    "username" in form && "password" in form
  }

  /** The optional remember field, read with `form.get`. */
  function RememberField(form: Form): (r: Option<string>)
    ensures r.Some? <==> "remember" in form
    ensures r.Some? ==> r.value == form["remember"]
  {
    if "remember" in form then Some(form["remember"]) else None
  }

  /**
   POST /signup: insert the submitted account. A taken username yields the
   duplicate message; success redirects to login without logging anybody in.
   Session and cookie are never touched.
   */
  function Signup(st: State, form: Form): (out: Step)
    ensures out.state.session == st.session && out.state.cookie == st.cookie
    ensures !HasCredentials(form) ==> out == Step(BadRequest, st)
    ensures HasCredentials(form) && form["username"] in st.accounts ==>
              out == Step(Text("Username already exists! Try another."), st)
    ensures HasCredentials(form) && form["username"] !in st.accounts ==>
              && out.response == RedirectToLogin
              && out.state.accounts.Keys == st.accounts.Keys + {form["username"]}
              && out.state.accounts[form["username"]] == form["password"]
              && (forall k :: k in st.accounts ==> out.state.accounts[k] == st.accounts[k])
  {
    if !HasCredentials(form) then Step(BadRequest, st)
    else
      match Accounts.Create(st.accounts, form["username"], form["password"])
      case Created(store) => Step(RedirectToLogin, st.(accounts := store))
      case AlreadyExists => Step(Text(UsernameTaken), st)
  }

  /**
   POST /login: when the store holds exactly the submitted password for the
   submitted username, sign the client in and write the welcome cookie, both
   with the lifetime chosen by the remember field; otherwise answer with one
   message that does not say which field was wrong, changing nothing.
   */
  function Login(st: State, form: Form): (out: Step)
    ensures out.state.accounts == st.accounts
    ensures out.response == RedirectToHome <==>
              HasCredentials(form) && form["username"] in st.accounts
              && st.accounts[form["username"]] == form["password"]
    ensures out.response != RedirectToHome ==> out.state == st
    ensures !HasCredentials(form) ==> out.response == BadRequest
    ensures HasCredentials(form) && out.response != RedirectToHome ==>
              out.response == Text("Invalid username or password. Try again.")
    ensures out.response == RedirectToHome ==>
              && out.state.session.username == Some(form["username"])
              && (out.state.session.permanent <==> "remember" in form && form["remember"] == "on")
              && out.state.cookie.Some?
              && out.state.cookie.value.value == "Welcome back, " + form["username"]
              && out.state.cookie.value.maxAge == Lifetime(out.state.session)
  {
    if !HasCredentials(form) then Step(BadRequest, st)
    else
      var u, p := form["username"], form["password"];
      if Accounts.Verify(st.accounts, u, p) then
        var remember := RememberField(form);
        Step(RedirectToHome, st.(session := SignIn(u, remember), cookie := Some(WelcomeCookie(u, remember))))
      else
        Step(Text(InvalidCredentials), st)
  }

  /**
   GET /: the access guard. A session holding a username sees its home page
   with the visit message; anybody else is sent to login. Nothing changes.
   */
  function Home(st: State): (out: Step)
    ensures out.state == st
    ensures out.response.RenderHome? <==> st.session.username.Some?
    ensures out.response.RenderHome? ==> out.response.username == st.session.username.value
    ensures out.response.RenderHome? && st.cookie.Some? ==> out.response.lastVisit == st.cookie.value.value
    ensures out.response.RenderHome? && st.cookie.None? ==> out.response.lastVisit == "First time visiting!"
    ensures !out.response.RenderHome? ==> out.response == RedirectToLogin
  {
    match st.session.username
    case Some(u) => Step(RenderHome(u, LastVisit(st.cookie)), st)
    case None => Step(RedirectToLogin, st)
  }

  /**
   GET /logout: drop the session's username, if any, and expire the visit
   cookie, which the client then deletes. Always redirects to login.
   */
  function Logout(st: State): (out: Step)
    ensures out.response == RedirectToLogin
    ensures out.state.session.username.None?
    ensures out.state.session.permanent == st.session.permanent
    ensures out.state.cookie.None?
    ensures out.state.accounts == st.accounts
  {
    Step(RedirectToLogin, st.(session := SignOut(st.session), cookie := None))
  }
}

=== FILE: auth_trace.dfy ===
/**
 Sequences of requests from one client against the application, and the
 properties that hold across them: the account store only grows, a signed-in
 session always names a registered account, and the visit cookie always
 carries the lifetime and message of the login that created the session.
 */
module AuthTrace {
  import opened Wrappers
  import Accounts
  import opened ClientSession
  import opened AuthFlow

  datatype Request =
    | SignupRequest(form: Form)
    | LoginRequest(form: Form)
    | HomeRequest
    | LogoutRequest

  /** Dispatches one request to its route. */
  function Apply(st: State, req: Request): Step
  {
    match req
    case SignupRequest(f) => Signup(st, f)
    case LoginRequest(f) => Login(st, f)
    case HomeRequest => Home(st)
    case LogoutRequest => Logout(st)
  }

  /** The state after serving `reqs` in order. */
  function Run(st: State, reqs: seq<Request>): State
    decreases |reqs|
  {
    if reqs == [] then st else Run(Apply(st, reqs[0]).state, reqs[1..])
  }

  /**
   The invariant linking the three pieces of state: a session that holds a
   username names a registered account, and the client then holds the
   welcome cookie for that username whose max-age is the session's lifetime.
   The cookie half relies on there being no clock and on a client that keeps
   every cookie until logout and sends back only the cookie the server last
   set: nothing in the model expires on its own, and `last_visit` is unsigned.
   */
  predicate Consistent(st: State)
  {
    st.session.username.Some? ==>
      && st.session.username.value in st.accounts
      && st.cookie.Some?
      && st.cookie.value.value == WelcomePrefix + st.session.username.value
      && st.cookie.value.maxAge == Lifetime(st.session)
  }

  /** Every account of `before` is still in `after` with the same password. */
  predicate Extends(before: Accounts.Store, after: Accounts.Store)
  {
    forall u :: u in before ==> u in after && after[u] == before[u]
  }

  lemma InitialConsistent()
    ensures Consistent(Initial)
    ensures Initial.session.username.None? && Initial.cookie.None?
  {
  }

  /** Each route keeps the state consistent and never loses or alters an account. */
  lemma ApplyPreserves(st: State, req: Request)
    requires Consistent(st)
    ensures Consistent(Apply(st, req).state)
    ensures Extends(st.accounts, Apply(st, req).state.accounts)
  {
  }

  /** Any sequence of requests keeps the state consistent and only adds accounts. */
  lemma {:induction false} RunPreserves(st: State, reqs: seq<Request>)
    requires Consistent(st)
    ensures Consistent(Run(st, reqs))
    ensures Extends(st.accounts, Run(st, reqs).accounts)
    decreases |reqs|
  {
    if reqs != [] {
      var next := Apply(st, reqs[0]).state;
      ApplyPreserves(st, reqs[0]);
      RunPreserves(next, reqs[1..]);
    }
  }

  /** From a new deployment, home only ever greets a registered user, with that user's welcome message. */
  lemma HomeGreetsOnlyRegistered(reqs: seq<Request>)
    ensures var st := Run(Initial, reqs);
            Home(st).response.RenderHome? ==>
              && Home(st).response.username in st.accounts
              && Home(st).response.lastVisit == "Welcome back, " + Home(st).response.username
  {
    InitialConsistent();
    RunPreserves(Initial, reqs);
  }

  /** Logging out twice is the same as logging out once. */
  lemma LogoutIdempotent(st: State)
    ensures Logout(Logout(st).state) == Logout(st)
  {
  }

  /** After logout the guard sends the client to login. */
  lemma HomeAfterLogout(st: State)
    ensures Home(Logout(st).state).response == RedirectToLogin
  {
  }

  /** After a successful login, home greets the user with the welcome cookie's message. */
  lemma HomeAfterLogin(st: State, form: Form)
    requires Login(st, form).response == RedirectToHome
    ensures Home(Login(st, form).state).response ==
              RenderHome(form["username"], "Welcome back, " + form["username"])
  {
  }

  /**
   A signed-up account can log in with the password it was created with and
   with no other; a second signup under the same name is refused and changes nothing.
   */
  lemma SignupThenLogin(st: State, u: string, p: string, q: string)
    requires u !in st.accounts
    ensures var after := Signup(st, map["username" := u, "password" := p]);
            && after.response == RedirectToLogin
            && after.state.session == st.session
            && (Login(after.state, map["username" := u, "password" := q]).response == RedirectToHome <==> q == p)
            && Signup(after.state, map["username" := u, "password" := q]) ==
                 Step(Text("Username already exists! Try another."), after.state)
  {
  }

  /**
   Failed logins are indistinguishable: whether the username is unknown or
   the password wrong, the client gets the same answer and the same state.
   */
  lemma FailedLoginsAlike(st: State, f1: Form, f2: Form)
    requires HasCredentials(f1) && HasCredentials(f2)
    requires Login(st, f1).response != RedirectToHome
    requires Login(st, f2).response != RedirectToHome
    ensures Login(st, f1) == Login(st, f2)
  {
  }

  /**
   A login with the remember box ticked and one without differ only in the
   session's permanence and the cookie's max-age, which move together.
   */
  lemma RememberOnlyChangesLifetime(st: State, u: string, p: string, remember: string)
    requires Accounts.Verify(st.accounts, u, p)
    ensures var plain := Login(st, map["username" := u, "password" := p]).state;
            var ticked := Login(st, map["username" := u, "password" := p, "remember" := remember]).state;
            && plain.session == Session(Some(u), false)
            && plain.cookie == Some(VisitCookie("Welcome back, " + u, None))
            && ticked.session.username == Some(u)
            && (ticked.session.permanent <==> remember == "on")
            && ticked.cookie == Some(VisitCookie("Welcome back, " + u, if remember == "on" then Some(604800) else None))
  {
  }

  /**
   The walk-through: alice signs up, a second signup is refused, a wrong
   password is rejected without creating a session, a remembered login
   starts a seven-day session and cookie, home greets her, logout ends it.
   */
  lemma AliceScenario()
    ensures var s1 := Signup(Initial, map["username" := "alice", "password" := "pw1"]);
            var s2 := Signup(s1.state, map["username" := "alice", "password" := "pw2"]);
            var s3 := Login(s2.state, map["username" := "alice", "password" := "wrong"]);
            var s4 := Login(s3.state, map["username" := "alice", "password" := "pw1", "remember" := "on"]);
            var s5 := Home(s4.state);
            var s6 := Logout(s5.state);
            var s7 := Home(s6.state);
            && s1.response == RedirectToLogin
            && s2.response == Text("Username already exists! Try another.")
            && s3.response == Text("Invalid username or password. Try again.")
            && s3.state.session.username.None?
            && s4.response == RedirectToHome
            && s4.state.session == Session(Some("alice"), true)
            && s4.state.cookie == Some(VisitCookie("Welcome back, alice", Some(604800)))
            && s5.response == RenderHome("alice", "Welcome back, alice")
            && s6.state.session.username.None? && s6.state.cookie.None?
            && s7.response == RedirectToLogin
  {
    var s1 := Signup(Initial, map["username" := "alice", "password" := "pw1"]);
    assert s1.state.accounts == map["alice" := "pw1"];
    var s2 := Signup(s1.state, map["username" := "alice", "password" := "pw2"]);
    assert s2.state == s1.state;
    var s3 := Login(s2.state, map["username" := "alice", "password" := "wrong"]);
    assert s3.state == s1.state;
    var form := map["username" := "alice", "password" := "pw1", "remember" := "on"];
    assert RememberField(form) == Some("on");
    assert WelcomePrefix + "alice" == "Welcome back, alice";
    var s4 := Login(s3.state, form);
    assert s4.state.cookie == Some(VisitCookie("Welcome back, alice", Some(604800)));
  }
}

=== FILE: session.dfy ===
/**
 The two pieces of per-client state: the signed session, and the
 informational `last_visit` cookie. Both take their declared lifetime from
 the same "remember me" decision made at login: a seven-day span, or none.
 Durations are whole seconds; there is no clock, so when either actually
 expires is not modelled.
 */
module ClientSession {
  import opened Wrappers

  const SecondsPerDay: nat := 24 * 60 * 60

  /** The declared `permanent_session_lifetime`, seven days; when a session actually expires is not modelled. */
  const PermanentSessionLifetime: nat := 7 * SecondsPerDay

  /** The `max_age` given to the visit cookie when "remember me" is ticked. */
  const RememberCookieMaxAge: nat := 7 * 24 * 60 * 60

  const WelcomePrefix := "Welcome back, "

  /** What home shows when the client sends no visit cookie. */
  const FirstVisit := "First time visiting!"

  /**
   The session dictionary, reduced to what the application uses: the
   `username` key, if set, and the `permanent` flag.
   */
  datatype Session = Session(username: Option<string>, permanent: bool)

  /** The session a client starts with: nobody logged in, not permanent. */
  const Fresh := Session(None, false)

  /** The `last_visit` cookie held by the client; `maxAge` absent means it ends with the browser. */
  datatype VisitCookie = VisitCookie(value: string, maxAge: Option<nat>)

  /** The remember checkbox is ticked only when the form sends exactly "on". */
  predicate Remembered(remember: Option<string>)
  {
    remember == Some("on")
  }

  /**
   The lifetime a session declares: `permanent_session_lifetime` when
   permanent, none otherwise. When a session actually expires is not modelled.
   */
  function Lifetime(s: Session): (d: Option<nat>)
    ensures d.Some? <==> s.permanent
    ensures d.Some? ==> d.value == 604800
  {
    if s.permanent then Some(PermanentSessionLifetime) else None
  }

  /** The session after a successful login of `u`. */
  function SignIn(u: string, remember: Option<string>): (s: Session)
    ensures s.username == Some(u)
    ensures s.permanent <==> remember == Some("on")
    ensures Lifetime(s) == (if remember == Some("on") then Some(604800) else None)
  {
    Session(Some(u), Remembered(remember))
  }

  /**
   The cookie written by a successful login of `u`. Its max-age is the
   lifetime of the session the same login creates: one condition, one span.
   */
  function WelcomeCookie(u: string, remember: Option<string>): (c: VisitCookie)
    ensures c.value == "Welcome back, " + u
    ensures c.maxAge == Lifetime(SignIn(u, remember))
    ensures c.maxAge.Some? <==> remember == Some("on")
  {
    VisitCookie(WelcomePrefix + u, if Remembered(remember) then Some(RememberCookieMaxAge) else None)
  }

  /** Removes the username, keeping the permanent flag as `session.pop` does. */
  function SignOut(s: Session): (r: Session)
    ensures r.username.None?
    ensures r.permanent == s.permanent && Lifetime(r) == Lifetime(s)
  {
    Session(None, s.permanent)
  }

  /** The message home shows for the cookie the client sent, if any. */
  function LastVisit(cookie: Option<VisitCookie>): (m: string)
    ensures cookie.Some? ==> m == cookie.value.value
    ensures cookie.None? ==> m == "First time visiting!"
  {
    match cookie
    case Some(c) => c.value
    case None => FirstVisit
  }
}

=== FILE: users_table.dfy ===
/**
 The `users` table as the storage engine holds it: rows in insertion order,
 each with an auto-increment id, a username and a password. The UNIQUE
 constraint on `username` turns a duplicate INSERT into an integrity error,
 and the login query returns a row matching both columns, if any; the scan
 order is the model's choice. The module shows that this table behaves as the map of the
 `Accounts` module.
 */
module UsersTable {
  import opened Wrappers
  import Accounts

  datatype Row = Row(id: nat, username: string, password: string)

  datatype InsertResult = Inserted(rows: seq<Row>) | IntegrityError

  /** The UNIQUE constraint: no two rows share a username. */
  predicate Unique(rows: seq<Row>)
  {
    forall i, j :: 0 <= i < j < |rows| ==> rows[i].username != rows[j].username
  }

  /** Ids are 1, 2, 3, ... in insertion order; nothing is ever deleted. */
  predicate Numbered(rows: seq<Row>)
  {
    forall i :: 0 <= i < |rows| ==> rows[i].id == i + 1
  }

  /** Row `i` exists and has exactly the given username and password. */
  predicate MatchesAt(rows: seq<Row>, i: int, u: string, p: string)
  {
    0 <= i < |rows| && rows[i].username == u && rows[i].password == p
  }

  /**
   Row `i` is the first row, in the model's row order, that has exactly the
   given username and password.
   */
  predicate FirstMatchAt(rows: seq<Row>, i: int, u: string, p: string)
  {
    MatchesAt(rows, i, u, p) && forall j :: 0 <= j < i ==> !MatchesAt(rows, j, u, p)
  }

  /** Some row has exactly the given username and password. */
  predicate HasMatch(rows: seq<Row>, u: string, p: string)
  {
    exists i :: 0 <= i < |rows| && MatchesAt(rows, i, u, p)
  }

  /** The values of the `username` column. */
  function Usernames(rows: seq<Row>): set<string>
  {
    set i | 0 <= i < |rows| :: rows[i].username
  }

  /** The table read as a username-to-password map (later rows win, which never matters under `Unique`). */
  function AsStore(rows: seq<Row>): (store: Accounts.Store)
    ensures store.Keys == Usernames(rows)
    decreases |rows|
  {
    if rows == [] then map[]
    else
      var last := rows[|rows| - 1];
      var front := rows[..|rows| - 1];
      assert Usernames(rows) == Usernames(front) + {last.username} by {
        forall x | x in Usernames(rows) ensures x in Usernames(front) + {last.username} {
          var i :| 0 <= i < |rows| && rows[i].username == x;
          if i < |rows| - 1 {
            assert front[i] == rows[i];
          }
        }
        forall x | x in Usernames(front) ensures x in Usernames(rows) {
          var i :| 0 <= i < |front| && front[i].username == x;
          assert rows[i] == front[i];
        }
      }
      AsStore(front)[last.username := last.password]
  }

  /** `INSERT INTO users (username, password) VALUES (?, ?)`. */
  function Insert(rows: seq<Row>, u: string, p: string): (r: InsertResult)
    ensures r.Inserted? <==> u !in Usernames(rows)
    ensures r.Inserted? ==> |r.rows| == |rows| + 1 && r.rows[..|rows|] == rows
    ensures r.Inserted? ==> r.rows[|rows|].username == u && r.rows[|rows|].password == p
    ensures r.Inserted? && Unique(rows) ==> Unique(r.rows)
    ensures r.Inserted? && Numbered(rows) ==> Numbered(r.rows)
  {
    if u in Usernames(rows) then IntegrityError
    else
      var rows' := rows + [Row(|rows| + 1, u, p)];
      assert rows'[..|rows|] == rows;
      Inserted(rows')
  }

  /** Under the UNIQUE constraint, a row's password is what the map holds for its username. */
  lemma {:induction false} AsStoreRow(rows: seq<Row>, i: nat)
    requires Unique(rows)
    requires i < |rows|
    ensures rows[i].username in AsStore(rows)
    ensures AsStore(rows)[rows[i].username] == rows[i].password
    decreases |rows|
  {
    var front := rows[..|rows| - 1];
    if i < |rows| - 1 {
      assert front[i] == rows[i];
      assert Unique(front) by {
        forall a, b | 0 <= a < b < |front| ensures front[a].username != front[b].username {
          assert front[a] == rows[a] && front[b] == rows[b];
        }
      }
      AsStoreRow(front, i);
    }
  }

  /** Some row matches both columns exactly when the map verifies the pair. */
  lemma MatchIffVerify(rows: seq<Row>, u: string, p: string)
    requires Unique(rows)
    ensures HasMatch(rows, u, p) <==> Accounts.Verify(AsStore(rows), u, p)
  {
    if Accounts.Verify(AsStore(rows), u, p) {
      assert u in Usernames(rows);
      var i :| 0 <= i < |rows| && rows[i].username == u;
      AsStoreRow(rows, i);
      assert MatchesAt(rows, i, u, p);
    }
    if HasMatch(rows, u, p) {
      var i :| 0 <= i < |rows| && MatchesAt(rows, i, u, p);
      AsStoreRow(rows, i);
    }
  }

  /**
   `SELECT * FROM users WHERE username=? AND password=?` followed by
   `fetchone()`: a row whose two columns equal the arguments, if any. SQL
   leaves the order of an unordered query open; the model scans in insertion
   order, which makes no difference under `Unique`, where at most one row matches.
   */
  method SelectByCredentials(rows: seq<Row>, u: string, p: string) returns (found: Option<Row>)
    ensures found.Some? ==> exists i :: FirstMatchAt(rows, i, u, p) && rows[i] == found.value
    ensures found.None? ==> !HasMatch(rows, u, p)
    ensures Unique(rows) ==> (found.Some? <==> Accounts.Verify(AsStore(rows), u, p))
  {
    var k := 0;
    while k < |rows| && !MatchesAt(rows, k, u, p)
      invariant 0 <= k <= |rows|
      invariant forall i :: 0 <= i < k ==> !MatchesAt(rows, i, u, p)
    {
      k := k + 1;
    }
    if k < |rows| {
      assert FirstMatchAt(rows, k, u, p);
      found := Some(rows[k]);
    } else {
      found := None;
    }
    if Unique(rows) {
      MatchIffVerify(rows, u, p);
    }
  }

  /**
   The table refines the map: an INSERT succeeds exactly when the map's
   `Create` does, and the table afterwards reads as the map afterwards.
   */
  lemma InsertRefinesCreate(rows: seq<Row>, u: string, p: string)
    ensures Insert(rows, u, p).Inserted? <==> Accounts.Create(AsStore(rows), u, p).Created?
    ensures Insert(rows, u, p).Inserted? ==>
              AsStore(Insert(rows, u, p).rows) == Accounts.Create(AsStore(rows), u, p).store
  {
    var r := Insert(rows, u, p);
    if r.Inserted? {
      assert r.rows[..|r.rows| - 1] == rows;
    }
  }
}

=== FILE: wrappers.dfy ===
/** The optional-value type shared by the whole model. */
module Wrappers {

  /** A value that may be missing: a form field, a cookie, a session key. */
  datatype Option<+T> = None | Some(value: T)
}
